=== FILE: README.md ===
# Don't Be a Square — simulation rules in Dafny

A model of the simulation core of *Don't Be a Square*. This is a Phaser top-down
game: the player dashes into enemy squares to kill them, and the squares chase
the player and shoot at it. The model covers these rules of `index.js`; the
player's death and the switch to the game-over menu are not among them (see
"Left out"):

- the enemy's plant-and-fire state machine: `canShoot`, `canMove`, `shoot`, the
  delayed fire, `moveTo` and `onKilled`;
- the player's dash: `canStartDash`, `startDash`, `move`, and the update loop
  re-arming the dash trigger when the button is up;
- the overlap outcome rules, `onPlayerEnemyOverlap` and `onPlayerBulletOverlap`;
- the spawn director: `spawnEnemies`, `addEnemies`, `addSquareEnemies` and
  `getRandomInt`;
- `forEachRecursive` over nested groups;
- the frame update with its score formula, and match start and restart
  (`create` after `shutdown`).

All state is immutable records, and every step is a pure function. The engine
is replaced by inputs:

- the clock (`now`, in integer milliseconds) and the elapsed seconds;
- the pointer position and the button state;
- the player's body position each frame, after the engine's physics step has
  moved it;
- the answers to the engine's geometric questions (bounds containment, sprite
  overlap, pointer contact);
- one `EnemySense` per enemy, in group order;
- the results of `Math.random`, as a stream of reals in [0, 1) consumed in
  source order. The model asks for 9 draws per frame (`MaxDrawsPerFrame`), which
  is enough even if the spawn gate and the starvation guard both ran. While
  `Game.WorldOk` holds, the guard never runs after the gate has spawned, so a
  frame actually takes at most 5. Requiring 9 only says the supplied stream is
  long enough.

Modules, leaves first:

| file | module | models |
|---|---|---|
| random.dfy | `Random` | `getRandomInt`, with the draw supplied |
| groups.dfy | `Groups` | the group tree and `forEachRecursive` |
| enemies.dfy | `Enemies` | `Enemy`: constructor, shoot gating, the shoot timer as one pending-fire slot, `moveTo`, kill |
| players.dfy | `Players` | `Player`: constructor, dash gating and target, `move`, dash re-arming, bullet damage |
| matches.dfy | `Matches` | match counters and difficulty bounds, kill bookkeeping, score, `shutdown` |
| spawn.dfy | `Spawn` | `spawnEnemies`, `addEnemies`, `addSquareEnemies` |
| game.dfy | `Game` | the frame (timers, then `update`), `onPlayerEnemyOverlap`, `create`/restart, and the world invariant |

The central invariant is `Game.WorldOk`. It has four parts:

- `numEnemiesAlive` is the number of living enemies;
- `numEnemiesKilled` is the number of dead ones;
- every enemy's timer slot is filled exactly while it is alive and planted;
- the two spawn-rate bounds stay 4000 ms apart.

`Game.FrameFacts` proves that every frame keeps this invariant.

Where the code's behaviour differs from what its own comments say, the model
follows the code:

- **Spawn count.** The comment at index.js:642 says 1 to 3 enemies are spawned.
  The code calls `getRandomInt(1, 3)`, whose range is half-open (index.js:66-73),
  so a batch holds 1 or 2 enemies, never 3. The starvation guard at
  index.js:646-647 therefore leaves one or two enemies alive.
- **Restart.** `shutdown` zeroes only the alive count, the kill count and the
  score. The one `Game` object is reused for every match. So the speed and
  spawn-rate bounds, and `nextSpawnTime`, carry over into the next match
  (`Game.RestartFacts`).
- **Dead enemies.** `forEachRecursive` visits dead enemies too. A dead enemy
  does not shoot or overlap, and `moveTo` never sets it chasing. Its bullets
  still fly and still hit the player.
- **Speed bounds.** Each kill raises `minSpeed` and `maxSpeed`, but the code
  never reads either of them.
- **Spawn-rate bounds.** The comment at index.js:680 calls it increasing the
  spawn rates, but raising both bounds lengthens the gap between spawns. The
  model keeps this behaviour as written.
- **Standing still before a shot.** The comment at index.js:132 describes the
  pause before a shot as time to stop moving. `moveTo` leaves an enemy that is
  on the player with its velocity unchanged, even while it is planted, so it
  can keep chasing through the pause. The frame follows the code and uses the
  written `moveTo`. The discrepancy is logged under "Findings", with a
  corrected `Enemies.MoveToIntended` beside it. The two versions agree except
  for a planted or dead enemy on the player (`Enemies.MoveToVersionsAgree`).

## Model

| member | source | states |
|---|---|---|
| Random.RandomInt | index.js:70-74 | for integer bounds with min < max the result lies in [min, max); getRandomInt(1, 1) is always 1 |
| Random.RandomIntCovers | index.js:70-74 | every integer of [min, max) is produced by some draw, so the range is exactly the half-open interval |
| Random.NextInt | index.js:73 | one Math.random draw is taken from the front of the stream, and the rest is returned |
| Groups.ForEachRecursive | index.js:79-95 | a tree with no leaves never calls the callback, and a single leaf is called once |
| Groups.ForEachRecursiveIsFoldOverLeaves | index.js:79-95 | the recursive traversal equals one left-to-right pass over the leaves, so the callback runs once per non-group descendant, in order, and never on a group |
| Groups.ForEachRecursiveVisitsLeavesInOrder | index.js:79-95 | a callback that records its argument records exactly the leaves, in order |
| Groups.Nested | index.js:580-585 | the enemies group holding the squares group has exactly the squares as its leaves |
| Groups.CallsAsWrittenLoseContext | index.js:85 | as written, a leaf one group down is called with the nested group as its context instead of the caller's |
| Groups.CallsKeepContext | index.js:79-95 | when the context is passed down, every call gets the caller's context and the calls are exactly the leaves, in order |
| Enemies.NewEnemy | index.js:131-133 | a new enemy is alive, not shooting and has no pending fire; its first shot is allowed only after a time drawn from [now + 300, now + 3000) |
| Enemies.ShootingBlocksMoveAndShoot | index.js:183-219 | an enemy that is shooting can neither move nor start another shot, at any time |
| Enemies.Shoot | index.js:150-178 | when canShoot holds, the enemy plants (cannot move or shoot again) with one fire due at now + 1000 and nothing else changes; otherwise nothing changes |
| Enemies.Fire | index.js:162-173 | a bullet leaves exactly when the enemy is alive; shooting ends, the slot empties, and canShoot stays false up to now + 5000 |
| Enemies.Tick | index.js:162-175 | a pending fire runs at the first frame whose clock reaches its due time; before that nothing changes and no bullet leaves |
| Enemies.CanShoot | index.js:183-189 | an enemy allowed to shoot is also allowed to move, and a consistent one has no fire pending |
| Enemies.CanMove | index.js:214-219 | an enemy allowed to move is alive, and a consistent one has no fire pending |
| Enemies.MoveTo | index.js:197-209 | as written: on the player nothing changes; otherwise the enemy chases exactly when it can move; it only chases if it can move or was already chasing on the player; only the velocity changes |
| Enemies.MoveToIntended | index.js:197-209 | corrected moveTo: an enemy that cannot move stands still even on the player; a movable one on the player keeps its velocity; off the player it chases exactly when it can move; only the velocity changes |
| Enemies.MoveToVersionsAgree | index.js:197-209 | the corrected moveTo differs from the written one only for an enemy that cannot move and is on the player |
| Enemies.MoveThenShootOnlyMoves | index.js:150-209 | moving before shooting changes only the velocity the enemy is left with: whether and when it plants does not depend on the move |
| Enemies.Kill | index.js:224-226 | a killed enemy is dead and its timer holds no pending fire |
| Enemies.StepsPreserveEnemyOk | index.js:150-226 | shoot, the timer, moveTo and kill all keep the timer slot filled exactly while the enemy is alive and planted |
| Enemies.PlantedEnemyKeepsChasing | index.js:197-209 | as written, in the update loop's order (moveTo, then shoot): an enemy plants in the visit that set it chasing; on the player the next moveTo keeps it chasing, and off the player it stops |
| Enemies.PlantedEnemyStandsStill | index.js:132 | with the corrected moveTo, every moveTo during the pause after planting leaves the enemy standing still, on the player or off it |
| Enemies.ShotsAreSpaced | index.js:150-189 | over any run of frames, consecutive shots of one enemy are more than 6000 ms (pause plus fire rate) apart |
| Players.NewPlayer | index.js:234-253 | a new player is alive with health 4, not dashing, armed to dash, with its dash cooldown at the creation time and maxDash a fifth of the smaller viewport side |
| Players.DashComponent | index.js:290-303 | each dash coordinate moves at most maxDash from the player, in the direction of the pointer, reaches the pointer when it is within maxDash, and moves exactly maxDash when it is farther |
| Players.DashTarget | index.js:288-306 | the dash target is within maxDash of the player on both axes, and equals the pointer when the pointer is within maxDash on both axes |
| Players.CanStartDash | index.js:272-282 | on a frame where a dash may start the button is down, so the update loop's re-arming changes nothing |
| Players.StartDash | index.js:288-310 | after startDash the player is dashing toward the clamped target, disarmed, and cannot dash again until now + 500; nothing else changes |
| Players.Move | index.js:324-357 | with the pointer at the origin nothing happens; otherwise a dash starts exactly when all five canStartDash conditions hold; the player is dashing afterwards exactly when it was dashing or started, and the target is outside its bounds, and then it moves toward the target; on arrival the dash stops and the velocity is kept; a player not dashing follows the pointer, or halts when the pointer touches it |
| Players.PlayerFrame | index.js:610-616 | the player's part of a frame reads the body's current position; a button-up frame re-arms the trigger and starts no dash; with the button held, a disarmed trigger stays disarmed and no dash starts |
| Players.RearmDash | index.js:610-613 | the dash trigger is armed after the frame exactly when it was armed before or the button is up |
| Players.DashLeavesTriggerDisarmed | index.js:272-309 | a dash can only start with the button down from an armed trigger, and a frame that starts a dash leaves the trigger disarmed with the cooldown at now + 500 and the target clamped around the body's current position |
| Players.HeldButtonNeverRedashes | index.js:610-616 | across any run of frames with the button held down, a disarmed trigger stays disarmed and no new dash starts |
| Players.OnBulletHit | index.js:693-704 | a bullet hit costs one health when the player is not dashing and nothing when dashing |
| Players.BulletHitsDamage | index.js:636-638 | k bullet hits cost exactly k health when not dashing and none while dashing, and change nothing else about the player |
| Matches.NewMatch | index.js:499-513 | a new match has zero counters, spawn rates 3000 and 7000, nextSpawnTime 0 (the null start), and speed bounds of an eighth and a quarter of the longer viewport side |
| Matches.RecordKills | index.js:676-686 | each kill raises the kill count, both speed bounds and both spawn-rate bounds by exactly one, and lowers the alive count by one; score and nextSpawnTime are unchanged |
| Matches.RecordKillOk | index.js:676-686 | a kill while some enemy is alive keeps the counters non-negative and the spawn-rate bounds 4000 apart |
| Matches.Score | index.js:656 | the score minus 100 per kill is the whole number of elapsed seconds |
| Matches.ScoreMonotone | index.js:656 | the score never falls as time passes and kills accrue, and one more kill is worth exactly 100 |
| Matches.Shutdown | index.js:790-797 | shutdown zeroes the alive count, kill count and score, and leaves the difficulty bounds and nextSpawnTime as they were |
| Matches.ShutdownIdempotent | index.js:790-797 | shutting down twice is the same as once |
| Spawn.NewEnemies | index.js:741 | a batch of n new enemies, each fresh and consistent |
| Spawn.AddSquareEnemies | index.js:740-743 | n fresh enemies are appended after the existing ones, the alive count rises by exactly n, nothing else in the match changes, and n draws are consumed |
| Spawn.AddEnemies | index.js:723-735 | the kind draw is consumed, and then n square enemies are added whatever it is |
| Spawn.SpawnEnemies | index.js:710-718 | before nextSpawnTime nothing happens and no draw is taken; after it, n enemies are added and the next spawn time lies in [now + minSpawnRate, now + maxSpawnRate) |
| Spawn.CountAliveAppend | index.js:742 | the alive count of a concatenation is the sum of the parts' counts |
| Game.OnPlayerEnemyOverlap | index.js:667-688 | while dashing, the enemy dies, the kill count and the four difficulty bounds each rise by one, and the alive count falls by one; when not dashing, nothing changes |
| Game.VisitEnemy | index.js:624-640 | one visit appends the updated enemy after those already visited and applies that enemy's bullet hits to the player; the enemy is moved and then asked to shoot, in that order, and is killed when it was alive, overlaps the player and the player is dashing; a planted enemy off the player stops, and an enemy on the player keeps the velocity it had, even while planted |
| Game.VisitOutcome | index.js:624-640 | one enemy visit kills the enemy exactly when it was alive, overlaps the player and the player is dashing; the player takes that enemy's bullet hits |
| Game.VisitKeepsPassOk | index.js:624-640 | visiting one more enemy keeps the pass bookkeeping |
| Game.EnemyPassFacts | index.js:624-640 | after the pass, each enemy is updated in place, none revived, the match equals the start match with exactly the pass's kills recorded, and the player lost one health per bullet unless dashing |
| Game.FoldVisits | index.js:624-640 | folding the visit over the enemies leaves each one as its own visit made it, with the dashing of the player the pass started from |
| Game.EnemyPass | index.js:624-640 | for any enemies, the pass visits each once, in order, and changes only the player's health; each enemy ends as moveTo then shoot leave it, killed exactly when it was alive, overlaps the player and the player is dashing |
| Game.EnemyPassKeepsBookkept | index.js:624-640 | the enemy pass keeps the alive and kill counters equal to the living and dead enemies |
| Game.TickTimers | index.js:162-175 | running the timers kills and revives no enemy, and every fire whose time has come is done, its enemy free to move again |
| Game.TickTimersKeepsWorldOk | index.js:162-175 | running the shoot timers at the frame start keeps the world's bookkeeping |
| Game.AddKeepsBookkept | index.js:740-743 | adding enemies keeps the alive and kill counters equal to the living and dead enemies |
| Game.SpawnKeepsBookkept | index.js:710-718 | the spawn gate keeps the bookkeeping, the kill count and the difficulty bounds |
| Game.SpawnStage | index.js:642-648 | the spawn gate and the starvation guard only append enemies, at most four, and the alive count rises by the number appended; from a non-negative count the alive counter is at least one afterwards; only the alive count and nextSpawnTime of the match change |
| Game.SpawnStageFacts | index.js:642-648 | after the spawn gate and the starvation guard at least one enemy is alive, at most two were added, and from none alive one or two are |
| Game.Update | index.js:602-662 | with a dead player nothing changes; otherwise the player is the one the frame's pointer handling and move make (its health aside), at its body position, the score is recomputed from the clock and the kills, and the enemy list grows by at most four |
| Game.Frame | index.js:602-662 | with a dead player the world is the old one with only its shoot timers run; otherwise the player is the one the frame's pointer handling and move make (its health aside), at its body position, and the enemy list grows by at most four |
| Game.FrameFacts | index.js:602-662 | a frame keeps the world invariant; with a dead player only the timers run; otherwise the bounds rise by exactly the frame's kills, the score is recomputed, at least one enemy is alive, and health falls by the bullet hits unless dashing; an enemy that was dead before the frame is still dead after it |
| Game.FrameShoots | index.js:624-640 | in a live player's frame every enemy already on screen ends in the shooting state of its timer tick followed by shoot, killed when dashed through; moving first changes only its velocity |
| Game.Create | index.js:568-588 | create makes a fresh player and adds numEnemiesAlive enemies while adding that number again to the counter |
| Game.NewGame | index.js:499-588 | the first match is the constructor's match with a new player and no enemies, because create adds the constructor's zero enemies |
| Game.NewGameFacts | index.js:499-597 | a new game is consistent, with a full-health player, no enemies, zero counters and the initial spawn rates |
| Game.Restart | index.js:790-797 | a restart gives the old match shut down, a new player and no enemies |
| Game.RestartFacts | index.js:790-797 | restarting zeroes the score and counters, clears the enemies and gives a full-health player, but keeps the difficulty bounds and nextSpawnTime |
| Game.RestartIdempotent | index.js:790-797 | restarting twice in a row gives the same world as restarting once |
| Game.FirstFrameSpawns | index.js:645-648 | the first frame of a new game leaves one or two enemies alive |

## Left out

- Menus, buttons, text labels, background images, audio and asset loading (`Menu`, `MainMenu`, `GameOverMenu`, `preload`, the drawing part of `create`): user interface and asset I/O.
- The state manager transitions `Game.start`, `Game.gameOver` and `Game.toMainMenu`: they only switch Phaser states. Their effect on the match is modelled as `shutdown` followed by `create` (`Game.Restart`).
- `Sprite.damage` below zero health, the player's death, and the switch to the game-over menu: this is engine behaviour. The model lowers health by one per hit and never kills the player. The update is still gated on `player.alive`.
- Phaser physics: `moveToObject`, `moveToXY`, `moveToPointer`, velocity integration, world bounds and bounce. Velocity is reduced to the last movement command given (`Motion`, `PlayerMotion`). The player's body position is not computed from it: each frame supplies the position the engine's physics step has produced.
- `getBounds`, `Rectangle.containsPoint`, `Circle.intersectsRectangle` and `arcade.overlap`: floating-point geometry in the engine. They are inputs. The engine reports no overlap for a sprite that has been killed.
- Enemy positions (`world.randomX`/`randomY`, drawn from Phaser's own generator), the viewport-derived enemy speed, and the bullet speed, lifespan and flight.
- `Enemy.prototype.speed++`: each enemy's own `speed` field shadows the prototype field, so this has no effect on existing enemies.
- The `debug` logging object, and `Math.random` itself: draws are supplied.
- `game.time.reset` and `game.stage.removeChildren`: clock and display-list housekeeping. The restarted world simply has no enemies.
- Enemies.Fire: reports that a bullet is released whenever the enemy is alive. Whether the weapon's pool of one bullet and its own fire-rate gate let it go is Phaser's business and is not modelled.
- Enemies.Tick: the timer is one pending slot that fires at the first frame whose clock is at or past the due time. Phaser's timer bookkeeping (expiry, re-creation, `start`) is not modelled.
- Game.Create: only the zero-enemy case arises (after the constructor or after `shutdown`). The doubled counter for a non-zero count is stated, but the world invariant is proved only for the zero case.
- Game.FrameFacts: time is integer milliseconds, while Phaser's clock is a float. Math.random products are exact reals rather than doubles.
- Groups.ForEachRecursive: the callback's `this` context is not carried. The only caller passes an arrow function, which ignores it. The finding below covers the context.
- Players.OnBulletHit: bullets are not modelled, so the `bullet.kill()` at the end of `onPlayerBulletOverlap` is not either; the bullets overlapping the player are a per-frame count supplied as input.

## Findings

| source | as written | input that shows it | evidently intended | confidence | as-written member | corrected member |
|---|---|---|---|---|---|---|
| index.js:197-209 | `moveTo` leaves the velocity untouched when the enemy is on the player, whether or not it can move, so an enemy that plants to shoot while on the player keeps chasing through the pause | an enemy that can shoot, off the player, planting in a visit (moveTo sets it chasing, then shoot plants it); at the next frame it is on the player: moveTo keeps it chasing while it is planted | an enemy that cannot move stands still, as the comment at index.js:132 describes the pause before a shot | not executed; low — whether the kept velocity is visible depends on the engine's overlap geometry | Enemies.MoveTo (shown by Enemies.PlantedEnemyKeepsChasing) | Enemies.MoveToIntended (proved by Enemies.PlantedEnemyStandsStill) |
| index.js:85 | the recursive call into a nested group omits the callback context, so the nested call falls back to its default context, the nested group itself | a group holding one nested group with one leaf, traversed with context c: the leaf's callback runs with the nested group as `this`, not c | every callback runs with the caller's context, as the `callbackContext` parameter promises | not executed; medium — the game's only caller passes an arrow function, which ignores `this` | Groups.CallsAsWritten (shown by Groups.CallsAsWrittenLoseContext) | Groups.Calls (proved by Groups.CallsKeepContext) |

=== FILE: enemies.dfy ===
/** The Enemy sprite's shoot/move gating (index.js:108-227).

    The shoot timer is one pending-fire slot: `shoot` fills it with the time
    the delayed callback is due, and `Tick` runs the callback at the first
    frame whose clock has reached that time. Velocity is reduced to the last
    command the enemy gave its physics body. */
module Enemies {
  import opened Random

  /** The velocity the enemy last set: chasing its target, or zero. */
  datatype Motion = Still | Chasing

  /** The shoot timer: empty, or holding one fire callback due at `due`. */
  datatype Pending = NoShot | FireAt(due: int)

  datatype Enemy = Enemy(
    alive: bool,
    isShooting: bool,
    nextShootTime: int,
    pending: Pending,
    motion: Motion)

  /** Pause, in ms, between planting and releasing a bullet. */
  const PauseBeforeShootRate: int := 1000
  /** The weapon's fire rate in ms: the wait after a shot before the next. */
  const FireRate: int := 5000
  /** The first shot is allowed at a random time in [now + 300, now + 3000). */
  const FirstShotMinDelay: int := 300
  const FirstShotMaxDelay: int := 3000

  /** The enemy constructor, for a batch created at `now` with Math.random draw `u`. */
  function NewEnemy(now: int, u: real): (e: Enemy)
    requires IsDraw(u)
    ensures e.alive && !e.isShooting && e.pending == NoShot && e.motion == Still
    ensures now + FirstShotMinDelay <= e.nextShootTime < now + FirstShotMaxDelay
  {
    Enemy(true, false, RandomInt(now + FirstShotMinDelay, now + FirstShotMaxDelay, u), NoShot, Still)
  }

  /** canShoot: alive, not already shooting, and past the next allowed shot.
      An enemy that may shoot may also move, and a consistent one has no
      fire pending. */
  function CanShoot(e: Enemy, now: int): (ok: bool)
    ensures ok ==> CanMove(e)
    ensures ok && EnemyOk(e) ==> e.pending == NoShot
  {
    e.alive && !e.isShooting && now > e.nextShootTime
  }

  /** canMove: alive and not planted to shoot. A consistent enemy that may
      move has no fire pending. */
  function CanMove(e: Enemy): (ok: bool)
    ensures ok ==> e.alive
    ensures ok && EnemyOk(e) ==> e.pending == NoShot
  {
    e.alive && !e.isShooting
  }

  /** An enemy that is planted to shoot can neither move nor start a second
      shot, at any time. */
  lemma ShootingBlocksMoveAndShoot(e: Enemy, now: int)
    requires e.isShooting
    ensures !CanMove(e) && !CanShoot(e, now)
  {
  }

  /** shoot: when allowed, plant and schedule one fire after the pause;
      otherwise nothing happens. */
  function Shoot(e: Enemy, now: int): (r: Enemy)
    ensures CanShoot(e, now) ==>
              r.isShooting && r.pending == FireAt(now + PauseBeforeShootRate)
              && !CanShoot(r, now) && !CanMove(r)
              && r.alive == e.alive && r.nextShootTime == e.nextShootTime && r.motion == e.motion
    ensures !CanShoot(e, now) ==> r == e
  {
    if CanShoot(e, now) then
      e.(isShooting := true, pending := FireAt(now + PauseBeforeShootRate))
    else
      e
  }

  /** The delayed fire callback run at `now`: a bullet leaves only if the
      enemy is still alive; the shot is over and the next one waits FireRate.
      The result pairs the enemy with whether a bullet was fired. */
  function Fire(e: Enemy, now: int): (r: (Enemy, bool))
    ensures r.1 <==> e.alive
    ensures !r.0.isShooting && r.0.pending == NoShot
    ensures r.0.nextShootTime == now + FireRate
    ensures forall t :: t <= now + FireRate ==> !CanShoot(r.0, t)
    ensures r.0.alive == e.alive && r.0.motion == e.motion
  {
    (e.(isShooting := false, nextShootTime := now + FireRate, pending := NoShot), e.alive)
  }

  /** The shoot timer at a frame boundary: a pending callback whose time has
      come runs; otherwise nothing changes and no bullet leaves. */
  function Tick(e: Enemy, now: int): (r: (Enemy, bool))
    ensures e.pending.FireAt? && now >= e.pending.due ==> r == Fire(e, now)
    ensures !(e.pending.FireAt? && now >= e.pending.due) ==> r == (e, false)
  {
    match e.pending
    case FireAt(due) => if now >= due then Fire(e, now) else (e, false)
    case NoShot => (e, false)
  }

  /** moveTo the player, as written: hold the current velocity when already
      on the player, chase when allowed to move, otherwise stop. */
  function MoveTo(e: Enemy, onTarget: bool): (r: Enemy)
    ensures onTarget ==> r == e
    ensures r.motion == Chasing ==> CanMove(e) || (onTarget && e.motion == Chasing)
    ensures !onTarget ==> (r.motion == Chasing <==> CanMove(e))
    ensures r.(motion := e.motion) == e
  {
    if onTarget then e
    else if CanMove(e) then e.(motion := Chasing)
    else e.(motion := Still)
  }

  /** kill() with its onKilled handler: the enemy dies and its shoot timer
      is destroyed, dropping any pending fire. isShooting is left as it was. */
  function Kill(e: Enemy): (r: Enemy)
    ensures !r.alive && r.pending == NoShot
    ensures r.isShooting == e.isShooting && r.nextShootTime == e.nextShootTime && r.motion == e.motion
  {
    e.(alive := false, pending := NoShot)
  }

  /** The enemy's timer slot is filled exactly while it is alive and planted
      to shoot; a dead enemy never has a pending fire. */
  predicate EnemyOk(e: Enemy) {
    (e.pending.FireAt? <==> e.alive && e.isShooting)
  }

  /** Every step of the enemy keeps EnemyOk. */
  lemma StepsPreserveEnemyOk(e: Enemy, now: int, onTarget: bool)
    requires EnemyOk(e)
    ensures EnemyOk(Shoot(e, now))
    ensures EnemyOk(Tick(e, now).0)
    ensures EnemyOk(MoveTo(e, onTarget))
    ensures EnemyOk(MoveToIntended(e, onTarget))
    ensures EnemyOk(Kill(e))
  {
  }

  /** moveTo as evidently intended: an enemy that may not move stops, even
      when it is on the player, so the pause before a shot is a standstill. */
  function MoveToIntended(e: Enemy, onTarget: bool): (r: Enemy)
    ensures !CanMove(e) ==> r.motion == Still
    ensures CanMove(e) && onTarget ==> r == e
    ensures !onTarget ==> (r.motion == Chasing <==> CanMove(e))
    ensures r.(motion := e.motion) == e
  {
    if !CanMove(e) then e.(motion := Still)
    else if onTarget then e
    else e.(motion := Chasing)
  }

  /** The two versions differ only for a planted or dead enemy on the player. */
  lemma MoveToVersionsAgree(e: Enemy, onTarget: bool)
    ensures (CanMove(e) || !onTarget) ==> MoveTo(e, onTarget) == MoveToIntended(e, onTarget)
  {
  }

  /** The update loop's visit order: moveTo, then shoot. */
  function MoveThenShoot(e: Enemy, onTarget: bool, now: int): Enemy
  {
    Shoot(MoveTo(e, onTarget), now)
  }

  /** Moving first changes only the velocity the shot leaves behind. */
  lemma MoveThenShootOnlyMoves(e: Enemy, onTarget: bool, now: int)
    ensures MoveThenShoot(e, onTarget, now) == Shoot(e, now).(motion := MoveTo(e, onTarget).motion)
  {
  }

  function MoveThenShootIntended(e: Enemy, onTarget: bool, now: int): Enemy
  {
    Shoot(MoveToIntended(e, onTarget), now)
  }

  /** As written: an enemy plants in the same visit in which moveTo set it
      chasing (off the player), and on the player every later moveTo of the
      pause keeps that chase, so it moves while planted. */
  lemma {:induction false} PlantedEnemyKeepsChasing(e: Enemy, now: int, later: int)
    requires CanShoot(e, now)
    ensures MoveThenShoot(e, false, now).isShooting
    ensures MoveThenShoot(e, false, now).motion == Chasing
    ensures MoveThenShoot(MoveThenShoot(e, false, now), true, later).motion == Chasing
    ensures MoveThenShoot(MoveThenShoot(e, false, now), false, later).motion == Still
  {
    var planted := MoveThenShoot(e, false, now);
    assert MoveTo(e, false).motion == Chasing;
    assert !CanShoot(planted, later);
  }

  /** Intended: whatever the frames report, every moveTo of the pause after
      planting leaves the enemy standing still. */
  lemma {:induction false} PlantedEnemyStandsStill(e: Enemy, onTarget: bool, now: int, later: int, onTargetLater: bool)
    requires CanShoot(e, now)
    ensures MoveThenShootIntended(e, onTarget, now).isShooting
    ensures MoveThenShootIntended(MoveThenShootIntended(e, onTarget, now), onTargetLater, later).motion == Still
  {
    var planted := MoveThenShootIntended(e, onTarget, now);
    assert CanMove(e);
    assert planted.isShooting;
    assert !CanShoot(planted, later);
  }

  // The shooting cadence of one enemy over a run of frames. Each frame the
  // timer runs first, then the update loop calls shoot.

  /** One frame of an enemy's shooting: timer, then shoot. */
  function ShootFrame(e: Enemy, now: int): Enemy
  {
    Shoot(Tick(e, now).0, now)
  }

  /** The frame times at which the enemy scheduled a shot, over a run of
      frames with clock readings `times`. */
  function ShotTimes(e: Enemy, times: seq<int>): seq<int>
    decreases |times|
  {
    if |times| == 0 then []
    else
      var before := Tick(e, times[0]).0;
      var started := if CanShoot(before, times[0]) then [times[0]] else [];
      started + ShotTimes(ShootFrame(e, times[0]), times[1..])
  }

  /** What an enemy remembers about its latest scheduled shot at `last`:
      either the fire is still due at last + pause, or it already ran and the
      next shot waits until after last + pause + fire rate. */
  predicate AfterShot(e: Enemy, last: int) {
    && EnemyOk(e)
    && (e.pending.FireAt? ==> e.pending.due == last + PauseBeforeShootRate)
    && (!e.pending.FireAt? ==> e.nextShootTime >= last + PauseBeforeShootRate + FireRate)
  }

  lemma {:induction false} ShotTimesAfterShot(e: Enemy, last: int, times: seq<int>)
    requires AfterShot(e, last)
    ensures forall i :: 0 <= i < |ShotTimes(e, times)| ==>
              ShotTimes(e, times)[i] > last + PauseBeforeShootRate + FireRate
    ensures forall i :: 0 <= i < |ShotTimes(e, times)| - 1 ==>
              ShotTimes(e, times)[i + 1] > ShotTimes(e, times)[i] + PauseBeforeShootRate + FireRate
    decreases |times|
  {
    if |times| > 0 {
      var now := times[0];
      var before := Tick(e, now).0;
      var next := ShootFrame(e, now);
      if CanShoot(before, now) {
        assert before.nextShootTime >= last + PauseBeforeShootRate + FireRate;
        assert AfterShot(next, now);
        ShotTimesAfterShot(next, now, times[1..]);
      } else {
        assert next == before;
        assert AfterShot(next, last);
        ShotTimesAfterShot(next, last, times[1..]);
      }
    }
  }

  /** Plant-and-fire cadence: over any run of frames, two consecutive shots
      of one enemy are more than pause + fire rate (6000 ms) apart, so
      canShoot holds at most once per such window. */
  lemma {:induction false} ShotsAreSpaced(e: Enemy, times: seq<int>)
    requires EnemyOk(e)
    ensures forall i :: 0 <= i < |ShotTimes(e, times)| - 1 ==>
              ShotTimes(e, times)[i + 1] > ShotTimes(e, times)[i] + PauseBeforeShootRate + FireRate
    decreases |times|
  {
    if |times| > 0 {
      var now := times[0];
      var before := Tick(e, now).0;
      var next := ShootFrame(e, now);
      StepsPreserveEnemyOk(e, now, false);
      StepsPreserveEnemyOk(before, now, false);
      if CanShoot(before, now) {
        assert AfterShot(next, now);
        ShotTimesAfterShot(next, now, times[1..]);
      } else {
        ShotsAreSpaced(next, times[1..]);
      }
    }
  }
}

=== FILE: game.dfy ===
/** The Game state's frame update (index.js:602-662), its overlap outcome
    rules (index.js:667-704), and match start and restart: create
    (index.js:544-597) after shutdown (index.js:790-797).

    A frame first runs every enemy's shoot timer (the engine advances timers
    before the state's update), then, while the player is alive: re-arm and
    move the player, visit every enemy through forEachRecursive over the
    `enemies` group (which holds the `squares` group), run the spawn gate and
    the starvation guard, and recompute the score. */
module Game {
  import opened Random
  import opened Groups
  import opened Enemies
  import opened Players
  import opened Matches
  import opened Spawn

  datatype World = World(player: Player, squares: seq<Enemy>, stats: Match)

  /** What the engine reports about one enemy this frame: whether its bounds
      contain the top-left corner of the player's bounds (moveTo's "on the
      player" test), whether it overlaps the player, and how many of its live
      bullets overlap the player. */
  datatype EnemySense = EnemySense(onPlayer: bool, touchesPlayer: bool, bulletHits: nat)

  /** One frame's inputs: the clock in ms, the total elapsed seconds, the
      pointer, the player's bounds as a membership test, the player's body
      position after the engine's physics step, one EnemySense per enemy in
      group order, and the Math.random draws. */
  datatype FrameInput = FrameInput(
    now: int,
    elapsedSeconds: real,
    ptr: Pointer,
    contains: Point -> bool,
    bodyPos: Point,
    senses: seq<EnemySense>,
    draws: seq<real>)

  /** Enough Math.random draws for any frame: the spawn count, the spawn
      gap, the enemy kind and two first-shot times, then the starvation
      guard's count, kind and two first-shot times. While the world invariant
      holds the guard never runs after the gate has spawned, so a frame takes
      at most five; nine also covers worlds outside the invariant. */
  const MaxDrawsPerFrame: nat := 9

  const NoContact: EnemySense := EnemySense(false, false, 0)

  function SenseAt(senses: seq<EnemySense>, i: nat): EnemySense {
    if i < |senses| then senses[i] else NoContact
  }

  /** onPlayerEnemyOverlap: a dashing player kills the enemy and the match
      records the kill; otherwise nothing changes. */
  function OnPlayerEnemyOverlap(p: Player, e: Enemy, m: Match): (r: (Enemy, Match))
    ensures p.isDashing ==>
              && !r.0.alive && r.0.pending == NoShot
              && r.1.numEnemiesKilled == m.numEnemiesKilled + 1
              && r.1.numEnemiesAlive == m.numEnemiesAlive - 1
              && r.1.minSpeed == m.minSpeed + 1.0 && r.1.maxSpeed == m.maxSpeed + 1.0
              && r.1.minSpawnRate == m.minSpawnRate + 1 && r.1.maxSpawnRate == m.maxSpawnRate + 1
              && r.1.score == m.score && r.1.nextSpawnTime == m.nextSpawnTime
    ensures !p.isDashing ==> r == (e, m)
  {
    if p.isDashing then (Kill(e), RecordKills(m, 1)) else (e, m)
  }

  /** The state the enemy callback threads: the player, the match, and the
      enemies visited so far in their updated form. */
  datatype PassState = PassState(player: Player, stats: Match, done: seq<Enemy>)

  /** The forEachRecursive callback for one enemy: move, shoot, overlap with
      the player (the engine reports no overlap for a killed sprite), then
      each overlapping bullet of the enemy's weapon. Bullets of a dead enemy
      still fly and still hit. The visit appends the updated enemy to
      those already visited, and the player takes this enemy's bullets. */
  function VisitEnemy(st: PassState, e: Enemy, sense: EnemySense, now: int): (r: PassState)
    ensures |r.done| == |st.done| + 1 && r.done[..|st.done|] == st.done
    ensures r.player == BulletHits(st.player, sense.bulletHits)
    ensures e.isShooting && !sense.onPlayer ==> r.done[|st.done|].motion == Still
    ensures sense.onPlayer ==> r.done[|st.done|].motion == e.motion
    ensures var shot := MoveThenShoot(e, sense.onPlayer, now);
            r.done[|st.done|] == (if e.alive && sense.touchesPlayer && st.player.isDashing then Kill(shot) else shot)
  {
    var moved := MoveTo(e, sense.onPlayer);
    var shot := Shoot(moved, now);
    var hit := if shot.alive && sense.touchesPlayer
               then OnPlayerEnemyOverlap(st.player, shot, st.stats)
               else (shot, st.stats);
    PassState(BulletHits(st.player, sense.bulletHits), hit.1, st.done + [hit.0])
  }

  function Visitor(senses: seq<EnemySense>, now: int): (PassState, Enemy) -> PassState {
    (st: PassState, e: Enemy) => VisitEnemy(st, e, SenseAt(senses, |st.done|), now)
  }

  /** What one visit makes of an enemy: moveTo, then shoot, then killed when
      it was alive, overlaps the player and the player is dashing. */
  function Visited(dashing: bool, e: Enemy, sense: EnemySense, now: int): Enemy {
    var shot := MoveThenShoot(e, sense.onPlayer, now);
    if e.alive && sense.touchesPlayer && dashing then Kill(shot) else shot
  }

  /** The enemy pass: forEachRecursive over enemies[squares[...]]. Whatever
      the enemies, it visits each one once and changes only the player's
      health. */
  function EnemyPass(p: Player, m: Match, squares: seq<Enemy>, senses: seq<EnemySense>, now: int): (r: PassState)
    ensures |r.done| == |squares|
    ensures r.player.(health := p.health) == p
    ensures forall i :: 0 <= i < |squares| ==> r.done[i] == Visited(p.isDashing, squares[i], SenseAt(senses, i), now)
  {
    var f := Visitor(senses, now);
    ForEachRecursiveIsFoldOverLeaves(Nested(squares), f, PassState(p, m, []));
    FoldShape(p, m, squares, senses, now);
    FoldVisits(p, m, squares, senses, now);
    ForEachRecursive(Nested(squares), f, PassState(p, m, []))
  }

  /** Bullets reported for the first n enemies. */
  function TotalHits(senses: seq<EnemySense>, n: nat): nat
  {
    if n == 0 then 0 else TotalHits(senses, n - 1) + SenseAt(senses, n - 1).bulletHits
  }

  /** What the pass has established after visiting the enemies `xs` from
      player `p` and match `m`: each enemy updated in place and still
      consistent, no enemy revived, the alive count lowered and the kill count
      and difficulty bounds raised by the number of enemies killed, and one
      damage per bullet unless dashing. */
  predicate PassOk(p: Player, m: Match, xs: seq<Enemy>, senses: seq<EnemySense>, st: PassState) {
    && |st.done| == |xs|
    && (forall i :: 0 <= i < |xs| ==> EnemyOk(st.done[i]) && (st.done[i].alive ==> xs[i].alive))
    && CountAlive(st.done) <= CountAlive(xs)
    && st.stats == RecordKills(m, CountAlive(xs) - CountAlive(st.done))
    && st.player == p.(health := p.health - (if p.isDashing then 0 else TotalHits(senses, |xs|)))
  }

  /** One enemy's visit: the enemy is killed exactly when it was alive, it
      overlaps the player and the player is dashing. */
  lemma VisitOutcome(st: PassState, e: Enemy, sense: EnemySense, now: int)
    requires EnemyOk(e)
    ensures var r := VisitEnemy(st, e, sense, now);
            var killed := e.alive && sense.touchesPlayer && st.player.isDashing;
            && r.done == st.done + [r.done[|st.done|]]
            && EnemyOk(r.done[|st.done|])
            && r.done[|st.done|].alive == (e.alive && !killed)
            && r.stats == (if killed then RecordKills(st.stats, 1) else st.stats)
            && r.player == BulletHits(st.player, sense.bulletHits)
  {
    var moved := MoveTo(e, sense.onPlayer);
    var shot := Shoot(moved, now);
    StepsPreserveEnemyOk(e, now, sense.onPlayer);
    StepsPreserveEnemyOk(moved, now, sense.onPlayer);
    StepsPreserveEnemyOk(shot, now, sense.onPlayer);
  }

  lemma VisitKeepsPassOk(p: Player, m: Match, xs: seq<Enemy>, e: Enemy, senses: seq<EnemySense>, now: int, st: PassState)
    requires PassOk(p, m, xs, senses, st) && EnemyOk(e)
    ensures PassOk(p, m, xs + [e], senses, VisitEnemy(st, e, SenseAt(senses, |xs|), now))
  {
    var sense := SenseAt(senses, |xs|);
    var r := VisitEnemy(st, e, sense, now);
    VisitOutcome(st, e, sense, now);
    var killed := e.alive && sense.touchesPlayer && st.player.isDashing;
    var last := r.done[|xs|];
    CountAliveAppend(st.done, [last]);
    CountAliveAppend(xs, [e]);
    var k := CountAlive(xs) - CountAlive(st.done);
    if killed {
      RecordKillsCompose(m, k, 1);
    }
    BulletHitsDamage(st.player, sense.bulletHits);
    assert (xs + [e])[..|xs|] == xs;
    assert TotalHits(senses, |xs + [e]|) == TotalHits(senses, |xs|) + sense.bulletHits;
  }

  /** The pass over the enemies keeps PassOk from its start. */
  lemma {:induction false} EnemyPassFacts(p: Player, m: Match, xs: seq<Enemy>, senses: seq<EnemySense>, now: int)
    requires forall i :: 0 <= i < |xs| ==> EnemyOk(xs[i])
    ensures PassOk(p, m, xs, senses, FoldItems(xs, Visitor(senses, now), PassState(p, m, [])))
    decreases |xs|
  {
    var f := Visitor(senses, now);
    if |xs| == 0 {
      assert RecordKills(m, 0) == m;
    } else {
      var n := |xs| - 1;
      EnemyPassFacts(p, m, xs[..n], senses, now);
      var st := FoldItems(xs[..n], f, PassState(p, m, []));
      assert FoldItems(xs, f, PassState(p, m, [])) == VisitEnemy(st, xs[n], SenseAt(senses, n), now);
      VisitKeepsPassOk(p, m, xs[..n], xs[n], senses, now, st);
      assert xs[..n] + [xs[n]] == xs;
    }
  }

  lemma {:induction false} FoldShape(p: Player, m: Match, xs: seq<Enemy>, senses: seq<EnemySense>, now: int)
    ensures var st := FoldItems(xs, Visitor(senses, now), PassState(p, m, []));
            |st.done| == |xs| && st.player.(health := p.health) == p
    decreases |xs|
  {
    if |xs| > 0 {
      var n := |xs| - 1;
      FoldShape(p, m, xs[..n], senses, now);
      var st := FoldItems(xs[..n], Visitor(senses, now), PassState(p, m, []));
      BulletHitsDamage(st.player, SenseAt(senses, n).bulletHits);
    }
  }

  /** Each enemy leaves the pass as its own visit made it: the player's
      dashing does not change during the pass. */
  lemma {:induction false} FoldVisits(p: Player, m: Match, xs: seq<Enemy>, senses: seq<EnemySense>, now: int)
    ensures var st := FoldItems(xs, Visitor(senses, now), PassState(p, m, []));
            && |st.done| == |xs|
            && forall i :: 0 <= i < |xs| ==> st.done[i] == Visited(p.isDashing, xs[i], SenseAt(senses, i), now)
    decreases |xs|
  {
    FoldShape(p, m, xs, senses, now);
    if |xs| > 0 {
      var n := |xs| - 1;
      var f := Visitor(senses, now);
      FoldVisits(p, m, xs[..n], senses, now);
      FoldShape(p, m, xs[..n], senses, now);
      var st := FoldItems(xs[..n], f, PassState(p, m, []));
      assert FoldItems(xs, f, PassState(p, m, [])) == VisitEnemy(st, xs[n], SenseAt(senses, n), now);
    }
  }

  /** The engine runs every enemy's shoot timer at the start of the frame:
      no enemy dies or revives, and every fire whose time has come is done,
      its enemy free to move again. */
  function TickTimers(squares: seq<Enemy>, now: int): (r: seq<Enemy>)
    ensures |r| == |squares|
    ensures forall i :: 0 <= i < |r| ==> r[i] == Tick(squares[i], now).0
    ensures forall i :: 0 <= i < |r| ==> r[i].alive == squares[i].alive
    ensures forall i :: 0 <= i < |r| && squares[i].pending.FireAt? && now >= squares[i].pending.due ==>
              r[i].pending == NoShot && !r[i].isShooting
  {
    seq(|squares|, i requires 0 <= i < |squares| => Tick(squares[i], now).0)
  }

  /** The spawn stage of update: spawnEnemies(getRandomInt(1, 3)), then the
      starvation guard adding getRandomInt(1, 3) more when none is alive. */
  function SpawnStage(m: Match, squares: seq<Enemy>, now: int, ds: seq<real>): (r: (Match, seq<Enemy>))
    requires ValidDraws(ds) && |ds| >= MaxDrawsPerFrame
    ensures |squares| <= |r.1| && r.1[..|squares|] == squares
    ensures |r.1| - |squares| == r.0.numEnemiesAlive - m.numEnemiesAlive <= 4
    ensures m.numEnemiesAlive >= 0 ==> r.0.numEnemiesAlive >= 1
    ensures r.0 == m.(numEnemiesAlive := r.0.numEnemiesAlive, nextSpawnTime := r.0.nextSpawnTime)
  {
    var (count, ds1) := NextInt(ds, 1, 3);
    var spawned := SpawnEnemies(m, squares, count, now, ds1);
    if spawned.0.numEnemiesAlive == 0 then
      var (count2, ds2) := NextInt(spawned.2, 1, 3);
      var added := AddEnemies(spawned.0, spawned.1, count2, now, ds2);
      (added.0, added.1)
    else (spawned.0, spawned.1)
  }

  /** update: the frame's work after the timers, gated on the player being
      alive. */
  function Update(w: World, inp: FrameInput): (r: World)
    requires ValidDraws(inp.draws) && |inp.draws| >= MaxDrawsPerFrame
    ensures !w.player.alive ==> r == w
    ensures w.player.alive ==>
              && r.player.pos == inp.bodyPos
              && r.stats.score == Score(inp.elapsedSeconds, r.stats.numEnemiesKilled)
              && |w.squares| <= |r.squares| <= |w.squares| + 4
    ensures w.player.alive ==>
              r.player.(health := w.player.health) == PlayerFrame(w.player, inp.ptr, inp.now, inp.contains, inp.bodyPos)
  {
    if !w.player.alive then w
    else
      var player := PlayerFrame(w.player, inp.ptr, inp.now, inp.contains, inp.bodyPos);
      var pass := EnemyPass(player, w.stats, w.squares, inp.senses, inp.now);
      var (m, squares) := SpawnStage(pass.stats, pass.done, inp.now, inp.draws);
      World(pass.player, squares, m.(score := Score(inp.elapsedSeconds, m.numEnemiesKilled)))
  }

  /** One frame: timers, then update. */
  function Frame(w: World, inp: FrameInput): (r: World)
    requires ValidDraws(inp.draws) && |inp.draws| >= MaxDrawsPerFrame
    ensures !w.player.alive ==> r == w.(squares := TickTimers(w.squares, inp.now))
    ensures w.player.alive ==> r.player.pos == inp.bodyPos && |w.squares| <= |r.squares| <= |w.squares| + 4
    ensures w.player.alive ==>
              r.player.(health := w.player.health) == PlayerFrame(w.player, inp.ptr, inp.now, inp.contains, inp.bodyPos)
  {
    Update(w.(squares := TickTimers(w.squares, inp.now)), inp)
  }

  /** The bookkeeping agrees with the enemies: the alive counter is the number
      of living enemies, every dead enemy was a dash kill, every enemy's timer
      slot is consistent, and the spawn-rate bounds stay apart. */
  predicate Bookkept(squares: seq<Enemy>, m: Match) {
    && MatchOk(m)
    && m.numEnemiesAlive == CountAlive(squares)
    && m.numEnemiesKilled == |squares| - CountAlive(squares)
    && (forall i :: 0 <= i < |squares| ==> EnemyOk(squares[i]))
  }

  predicate WorldOk(w: World) {
    Bookkept(w.squares, w.stats)
  }

  lemma TickTimersKeepsWorldOk(w: World, now: int)
    requires WorldOk(w)
    ensures WorldOk(w.(squares := TickTimers(w.squares, now)))
  {
    var ticked := TickTimers(w.squares, now);
    CountAliveSameLiveness(w.squares, ticked);
    forall i | 0 <= i < |ticked|
      ensures EnemyOk(ticked[i])
    {
      StepsPreserveEnemyOk(w.squares[i], now, false);
    }
  }

  /** addSquareEnemies keeps the bookkeeping and the kill count. */
  lemma AddKeepsBookkept(m: Match, squares: seq<Enemy>, n: nat, now: int, ds: seq<real>)
    requires n <= |ds| && ValidDraws(ds)
    requires Bookkept(squares, m)
    ensures var r := AddSquareEnemies(m, squares, n, now, ds);
            Bookkept(r.1, r.0)
  {
  }

  /** spawnEnemies keeps the bookkeeping, the kill count and the difficulty
      bounds, and adds at most n enemies. */
  lemma SpawnKeepsBookkept(m: Match, squares: seq<Enemy>, n: nat, now: int, ds: seq<real>)
    requires n + 2 <= |ds| && ValidDraws(ds)
    requires Bookkept(squares, m)
    ensures var r := SpawnEnemies(m, squares, n, now, ds);
            && Bookkept(r.1, r.0)
            && r.0.numEnemiesKilled == m.numEnemiesKilled
            && (now > m.nextSpawnTime ==> r.0.numEnemiesAlive == m.numEnemiesAlive + n)
            && (now <= m.nextSpawnTime ==> r.0.numEnemiesAlive == m.numEnemiesAlive)
            && r.0.minSpawnRate == m.minSpawnRate && r.0.maxSpawnRate == m.maxSpawnRate
            && r.0.minSpeed == m.minSpeed && r.0.maxSpeed == m.maxSpeed
  {
    if now > m.nextSpawnTime {
      var r := SpawnEnemies(m, squares, n, now, ds);
      var added := AddSquareEnemies(m.(nextSpawnTime := r.0.nextSpawnTime), squares, n, now, ds[2..]);
      AddKeepsBookkept(m.(nextSpawnTime := r.0.nextSpawnTime), squares, n, now, ds[2..]);
      assert r.0 == added.0 && r.1 == added.1;
    }
  }

  /** The spawn stage keeps the bookkeeping, the kill count and the
      difficulty bounds, adds at most two enemies, and always leaves at least
      one alive; from none alive it leaves one or two. */
  lemma SpawnStageFacts(m: Match, squares: seq<Enemy>, now: int, ds: seq<real>)
    requires ValidDraws(ds) && |ds| >= MaxDrawsPerFrame
    requires Bookkept(squares, m)
    ensures var r := SpawnStage(m, squares, now, ds);
            && Bookkept(r.1, r.0)
            && r.0.numEnemiesKilled == m.numEnemiesKilled
            && r.0.minSpawnRate == m.minSpawnRate && r.0.maxSpawnRate == m.maxSpawnRate
            && r.0.minSpeed == m.minSpeed && r.0.maxSpeed == m.maxSpeed
            && 1 <= r.0.numEnemiesAlive <= m.numEnemiesAlive + 2
            && (m.numEnemiesAlive == 0 ==> r.0.numEnemiesAlive <= 2)
  {
    var (count, ds1) := NextInt(ds, 1, 3);
    var spawned := SpawnEnemies(m, squares, count, now, ds1);
    SpawnKeepsBookkept(m, squares, count, now, ds1);
    if spawned.0.numEnemiesAlive == 0 {
      var (count2, ds2) := NextInt(spawned.2, 1, 3);
      var added := AddEnemies(spawned.0, spawned.1, count2, now, ds2);
      AddKeepsBookkept(spawned.0, spawned.1, count2, now, ds2[1..]);
      assert added == AddSquareEnemies(spawned.0, spawned.1, count2, now, ds2[1..]);
    }
  }

  /** The enemy pass, from consistent bookkeeping, leaves consistent
      bookkeeping with the kills recorded, and the player damaged by the
      bullets unless dashing. */
  lemma EnemyPassKeepsBookkept(p: Player, m: Match, squares: seq<Enemy>, senses: seq<EnemySense>, now: int)
    requires Bookkept(squares, m)
    ensures var pass := EnemyPass(p, m, squares, senses, now);
            && Bookkept(pass.done, pass.stats)
            && pass.stats == RecordKills(m, pass.stats.numEnemiesKilled - m.numEnemiesKilled)
            && pass.stats.numEnemiesKilled >= m.numEnemiesKilled
            && pass.player == p.(health := p.health - (if p.isDashing then 0 else TotalHits(senses, |squares|)))
  {
    var f := Visitor(senses, now);
    var init := PassState(p, m, []);
    var pass := EnemyPass(p, m, squares, senses, now);
    assert pass == FoldItems(squares, f, init) by {
      ForEachRecursiveIsFoldOverLeaves(Nested(squares), f, init);
    }
    EnemyPassFacts(p, m, squares, senses, now);
    assert PassOk(p, m, squares, senses, pass);
    var k := CountAlive(squares) - CountAlive(pass.done);
    assert pass.stats == RecordKills(m, k);
    assert pass.stats.numEnemiesKilled == m.numEnemiesKilled + k;
    assert pass.stats.numEnemiesAlive == CountAlive(pass.done);
    assert pass.stats.numEnemiesKilled == |pass.done| - CountAlive(pass.done);
    assert MatchOk(pass.stats);
  }

  /** A frame keeps the world's bookkeeping consistent. While the player is
      alive, the difficulty bounds rise by exactly the frame's kills, the score
      is recomputed from the clock and the kill count, at least one enemy is
      alive afterwards (one or two when none was), and the player loses one
      health per bullet hit unless dashing after this frame's move. */
  lemma {:induction false} FrameFacts(w: World, inp: FrameInput)
    requires WorldOk(w)
    requires ValidDraws(inp.draws) && |inp.draws| >= MaxDrawsPerFrame
    ensures WorldOk(Frame(w, inp))
    ensures !w.player.alive ==> Frame(w, inp) == w.(squares := TickTimers(w.squares, inp.now))
    ensures w.player.alive ==>
              var r := Frame(w, inp);
              var kills := r.stats.numEnemiesKilled - w.stats.numEnemiesKilled;
              && kills >= 0
              && r.stats.minSpawnRate == w.stats.minSpawnRate + kills
              && r.stats.maxSpawnRate == w.stats.maxSpawnRate + kills
              && r.stats.minSpeed == w.stats.minSpeed + kills as real
              && r.stats.maxSpeed == w.stats.maxSpeed + kills as real
              && r.stats.score == Score(inp.elapsedSeconds, r.stats.numEnemiesKilled)
              && r.stats.numEnemiesAlive >= 1
              && CountAlive(r.squares) >= 1
              && (w.stats.numEnemiesAlive == 0 ==> r.stats.numEnemiesAlive <= 2)
              && r.player.health == w.player.health
                   - (if r.player.isDashing then 0 else TotalHits(inp.senses, |w.squares|))
    ensures forall i :: 0 <= i < |w.squares| && !w.squares[i].alive ==> !Frame(w, inp).squares[i].alive
  {
    var ticked := w.(squares := TickTimers(w.squares, inp.now));
    TickTimersKeepsWorldOk(w, inp.now);
    if w.player.alive {
      var player := PlayerFrame(w.player, inp.ptr, inp.now, inp.contains, inp.bodyPos);
      var pass := EnemyPass(player, w.stats, ticked.squares, inp.senses, inp.now);
      EnemyPassKeepsBookkept(player, w.stats, ticked.squares, inp.senses, inp.now);
      SpawnStageFacts(pass.stats, pass.done, inp.now, inp.draws);
      BulletHitsDamage(player, 0);
      assert PassOk(player, w.stats, ticked.squares, inp.senses, pass) by {
        ForEachRecursiveIsFoldOverLeaves(Nested(ticked.squares), Visitor(inp.senses, inp.now), PassState(player, w.stats, []));
        EnemyPassFacts(player, w.stats, ticked.squares, inp.senses, inp.now);
      }
      var r := Frame(w, inp);
      var spawned := SpawnStage(pass.stats, pass.done, inp.now, inp.draws);
      assert r.squares == spawned.1;
      forall i | 0 <= i < |w.squares| && !w.squares[i].alive
        ensures !r.squares[i].alive
      {
        assert r.squares[i] == spawned.1[..|pass.done|][i] == pass.done[i];
      }
    }
  }

  /** In a live player's frame, every enemy already on screen leaves it as
      ShootFrame (timer, then shoot) leaves it, killed when dashed through,
      up to its velocity: moveTo before shoot changes nothing else. */
  lemma FrameShoots(w: World, inp: FrameInput)
    requires ValidDraws(inp.draws) && |inp.draws| >= MaxDrawsPerFrame
    ensures w.player.alive ==>
              var out := Frame(w, inp).squares;
              var dashing := PlayerFrame(w.player, inp.ptr, inp.now, inp.contains, inp.bodyPos).isDashing;
              && |w.squares| <= |out|
              && forall i :: 0 <= i < |w.squares| ==>
                   var s := ShootFrame(w.squares[i], inp.now);
                   var killed := w.squares[i].alive && SenseAt(inp.senses, i).touchesPlayer && dashing;
                   out[i].(motion := s.motion) == (if killed then Kill(s) else s)
  {
    if w.player.alive {
      var ticked := TickTimers(w.squares, inp.now);
      var player := PlayerFrame(w.player, inp.ptr, inp.now, inp.contains, inp.bodyPos);
      var pass := EnemyPass(player, w.stats, ticked, inp.senses, inp.now);
      var spawned := SpawnStage(pass.stats, pass.done, inp.now, inp.draws);
      var out := Frame(w, inp).squares;
      assert out == spawned.1;
      forall i | 0 <= i < |w.squares|
        ensures var s := ShootFrame(w.squares[i], inp.now);
                var killed := w.squares[i].alive && SenseAt(inp.senses, i).touchesPlayer && player.isDashing;
                out[i].(motion := s.motion) == (if killed then Kill(s) else s)
      {
        assert out[i] == spawned.1[..|pass.done|][i] == pass.done[i];
        MoveThenShootOnlyMoves(ticked[i], SenseAt(inp.senses, i).onPlayer, inp.now);
      }
    }
  }

  // Match start and restart. The state manager calls shutdown when leaving
  // the game state and create when entering it; the Game object itself is
  // built once, so whatever shutdown leaves alone carries over.

  /** create: a new player at `center`, an empty squares group inside the
      enemies group, then addEnemies(numEnemiesAlive). */
  function Create(m: Match, now: int, width: real, height: real, center: Point, ds: seq<real>): (w: World)
    requires width > 0.0 && height > 0.0
    requires m.numEnemiesAlive >= 0 && m.numEnemiesAlive + 1 <= |ds| && ValidDraws(ds)
    ensures w.player == NewPlayer(center, now, width, height)
    ensures |w.squares| == m.numEnemiesAlive
    ensures w.stats == m.(numEnemiesAlive := 2 * m.numEnemiesAlive)
  {
    var added := AddEnemies(m, [], m.numEnemiesAlive, now, ds);
    World(NewPlayer(center, now, width, height), added.1, added.0)
  }

  /** The first match: the Game constructor, then create. The constructor's
      alive count is zero, so create adds no enemies. */
  function NewGame(now: int, width: real, height: real, center: Point, ds: seq<real>): (w: World)
    requires width > 0.0 && height > 0.0
    requires 1 <= |ds| && ValidDraws(ds)
    ensures w.squares == []
    ensures w.stats == NewMatch(width, height)
    ensures w.player == NewPlayer(center, now, width, height)
  {
    Create(NewMatch(width, height), now, width, height, center, ds)
  }

  /** Play again: shutdown on leaving the match, create on entering the next.
      The new match is the old one shut down, with a new player and no
      enemies. */
  function Restart(w: World, now: int, width: real, height: real, center: Point, ds: seq<real>): (r: World)
    requires width > 0.0 && height > 0.0
    requires 1 <= |ds| && ValidDraws(ds)
    ensures r.stats == Shutdown(w.stats)
    ensures r.squares == []
    ensures r.player == NewPlayer(center, now, width, height)
  {
    Create(Shutdown(w.stats), now, width, height, center, ds)
  }

  /** A new game starts consistent, with a full-health player, no enemies,
      zeroed counters and the initial spawn-rate bounds. */
  lemma NewGameFacts(now: int, width: real, height: real, center: Point, ds: seq<real>)
    requires width > 0.0 && height > 0.0
    requires 1 <= |ds| && ValidDraws(ds)
    ensures var w := NewGame(now, width, height, center, ds);
            && WorldOk(w)
            && w.player.alive && w.player.health == InitialHealth
            && w.squares == []
            && w.stats.score == 0 && w.stats.numEnemiesAlive == 0 && w.stats.numEnemiesKilled == 0
            && w.stats.minSpawnRate == InitialMinSpawnRate && w.stats.maxSpawnRate == InitialMaxSpawnRate
  {
  }

  /** Restarting zeroes the score and the enemy counters, clears the enemies
      and gives a full-health player, but keeps the difficulty bounds and the
      next spawn time of the match before. */
  lemma RestartFacts(w: World, now: int, width: real, height: real, center: Point, ds: seq<real>)
    requires MatchOk(w.stats)
    requires width > 0.0 && height > 0.0
    requires 1 <= |ds| && ValidDraws(ds)
    ensures var r := Restart(w, now, width, height, center, ds);
            && WorldOk(r)
            && r.player.alive && r.player.health == InitialHealth
            && r.squares == []
            && r.stats.score == 0 && r.stats.numEnemiesAlive == 0 && r.stats.numEnemiesKilled == 0
            && r.stats.minSpawnRate == w.stats.minSpawnRate && r.stats.maxSpawnRate == w.stats.maxSpawnRate
            && r.stats.minSpeed == w.stats.minSpeed && r.stats.maxSpeed == w.stats.maxSpeed
            && r.stats.nextSpawnTime == w.stats.nextSpawnTime
  {
  }

  /** Restarting twice in succession gives the same world as once. */
  lemma RestartIdempotent(w: World, now: int, width: real, height: real, center: Point, ds: seq<real>)
    requires width > 0.0 && height > 0.0
    requires 1 <= |ds| && ValidDraws(ds)
    ensures Restart(Restart(w, now, width, height, center, ds), now, width, height, center, ds)
            == Restart(w, now, width, height, center, ds)
  {
  }

  /** The first frame of a new game spawns one or two enemies, through the
      starvation guard if the spawn gate is closed. */
  lemma FirstFrameSpawns(now: int, width: real, height: real, center: Point, ds: seq<real>, inp: FrameInput)
    requires width > 0.0 && height > 0.0
    requires 1 <= |ds| && ValidDraws(ds)
    requires ValidDraws(inp.draws) && |inp.draws| >= MaxDrawsPerFrame
    ensures var r := Frame(NewGame(now, width, height, center, ds), inp);
            && 1 <= r.stats.numEnemiesAlive <= 2
            && 1 <= CountAlive(r.squares) <= 2
  {
    var w := NewGame(now, width, height, center, ds);
    NewGameFacts(now, width, height, center, ds);
    FrameFacts(w, inp);
  }
}

=== FILE: groups.dfy ===
/** Display-object groups and the recursive forEach over them
    (Phaser.Group.prototype.forEachRecursive, index.js:79-95).

    A group's children are either nested groups or leaf display objects. The
    callback is modelled as a function that threads a state value through the
    calls, so "calls the callback on x, then on y" becomes "f(f(s, x), y)". */
module Groups {

  datatype Node<T> = Leaf(item: T) | Group(children: seq<Node<T>>)

  /** The leaf objects below a list of children, left to right: the reference
      order a traversal must follow. */
  function Leaves<T>(cs: seq<Node<T>>): seq<T>
    decreases cs
  {
    if |cs| == 0 then []
    else
      var first := match cs[0]
        case Leaf(x) => [x]
        case Group(ch) => Leaves(ch);
      first + Leaves(cs[1..])
  }

  /** Calling `f` once per element of a flat list, left to right. */
  function FoldItems<S, T>(xs: seq<T>, f: (S, T) -> S, s: S): S
  {
    if |xs| == 0 then s else f(FoldItems(xs[..|xs| - 1], f, s), xs[|xs| - 1])
  }

  /** forEachRecursive: for each child in order, recurse into a nested group,
      otherwise call the callback on the child. A tree without leaves never
      calls the callback; a flat list of leaves is a plain loop. */
  function ForEachRecursive<S, T>(cs: seq<Node<T>>, f: (S, T) -> S, s: S): (r: S)
    ensures Leaves(cs) == [] ==> r == s
    ensures |cs| == 1 && cs[0].Leaf? ==> r == f(s, cs[0].item)
    decreases cs
  {
    if |cs| == 0 then s
    else
      var s1 := match cs[0]
        case Leaf(x) => f(s, x)
        case Group(ch) => ForEachRecursive(ch, f, s);
      ForEachRecursive(cs[1..], f, s1)
  }

  lemma {:induction false} FoldItemsAppend<S, T>(a: seq<T>, b: seq<T>, f: (S, T) -> S, s: S)
    ensures FoldItems(a + b, f, s) == FoldItems(b, f, FoldItems(a, f, s))
    decreases |b|
  {
    if |b| == 0 {
      assert a + b == a;
    } else {
      assert (a + b)[..|a + b| - 1] == a + b[..|b| - 1];
      FoldItemsAppend(a, b[..|b| - 1], f, s);
    }
  }

  /** forEachRecursive calls the callback on every leaf below the group,
      exactly once each and in left-to-right order, and on nothing else: it
      behaves as a flat loop over Leaves. */
  lemma {:induction false} ForEachRecursiveIsFoldOverLeaves<S, T>(cs: seq<Node<T>>, f: (S, T) -> S, s: S)
    ensures ForEachRecursive(cs, f, s) == FoldItems(Leaves(cs), f, s)
    decreases cs
  {
    if |cs| > 0 {
      var first := match cs[0]
        case Leaf(x) => [x]
        case Group(ch) => Leaves(ch);
      var s1 := match cs[0]
        case Leaf(x) => f(s, x)
        case Group(ch) => ForEachRecursive(ch, f, s);
      match cs[0] {
        case Leaf(x) =>
          assert FoldItems([x], f, s) == f(FoldItems([], f, s), x);
        case Group(ch) =>
          ForEachRecursiveIsFoldOverLeaves(ch, f, s);
      }
      assert s1 == FoldItems(first, f, s);
      ForEachRecursiveIsFoldOverLeaves(cs[1..], f, s1);
      FoldItemsAppend(first, Leaves(cs[1..]), f, s);
    }
  }

  /** The recording callback: append the argument to the trace. */
  function Record<T>(trace: seq<T>, x: T): seq<T> {
    trace + [x]
  }

  /** The trace of callback arguments: with a callback that records its
      argument, the recorded sequence is exactly the leaves, in order. */
  lemma ForEachRecursiveVisitsLeavesInOrder<T>(cs: seq<Node<T>>)
    ensures ForEachRecursive(cs, Record<T>, []) == Leaves(cs)
  {
    ForEachRecursiveIsFoldOverLeaves(cs, Record, []);
    RecordingFoldIsIdentity(Leaves(cs));
  }

  lemma {:induction false} RecordingFoldIsIdentity<T>(xs: seq<T>)
    ensures FoldItems(xs, Record<T>, []) == xs
  {
    if |xs| > 0 {
      RecordingFoldIsIdentity(xs[..|xs| - 1]);
      assert FoldItems(xs, Record, []) == Record(xs[..|xs| - 1], xs[|xs| - 1]);
      assert xs[..|xs| - 1] + [xs[|xs| - 1]] == xs;
    }
  }

  /** A group holding one nested group of leaves, the shape of the game's
      `enemies` group with its `squares` sub-group. */
  function Nested<T>(items: seq<T>): (cs: seq<Node<T>>)
    ensures Leaves(cs) == items
  {
    var leaves := seq(|items|, i requires 0 <= i < |items| => Leaf(items[i]));
    LeavesOfLeafList(items, leaves);
    assert Leaves([Group(leaves)][1..]) == [];
    [Group(leaves)]
  }

  lemma {:induction false} LeavesOfLeafList<T>(items: seq<T>, leaves: seq<Node<T>>)
    requires |leaves| == |items|
    requires forall i :: 0 <= i < |items| ==> leaves[i] == Leaf(items[i])
    ensures Leaves(leaves) == items
    decreases |items|
  {
    if |items| > 0 {
      LeavesOfLeafList(items[1..], leaves[1..]);
    }
  }

  // The context `this` the callback is invoked with. The source's recursive
  // call `child.forEachRecursive(callback)` omits the context argument, so the
  // nested call falls back to its default, the nested group itself.

  datatype Context<C, T> = Caller(c: C) | NestedGroup(group: Node<T>)

  datatype Call<C, T> = Call(context: Context<C, T>, item: T)

  /** The callback invocations as written: nested groups lose the caller's
      context and pass themselves instead. */
  function CallsAsWritten<C, T>(cs: seq<Node<T>>, ctx: Context<C, T>): (calls: seq<Call<C, T>>)
    decreases cs
  {
    if |cs| == 0 then []
    else
      var first := match cs[0]
        case Leaf(x) => [Call(ctx, x)]
        case Group(ch) => CallsAsWritten(ch, NestedGroup(cs[0]));
      first + CallsAsWritten(cs[1..], ctx)
  }

  /** The callback invocations when the context is passed down, as the
      callbackContext parameter promises. */
  function Calls<C, T>(cs: seq<Node<T>>, ctx: Context<C, T>): (calls: seq<Call<C, T>>)
    decreases cs
  {
    if |cs| == 0 then []
    else
      var first := match cs[0]
        case Leaf(x) => [Call(ctx, x)]
        case Group(ch) => Calls(ch, ctx);
      first + Calls(cs[1..], ctx)
  }

  /** A leaf one group down is called with the nested group as `this`, not
      with the caller's context. */
  lemma CallsAsWrittenLoseContext<C, T>(c: C, x: T)
    ensures var cs := [Group([Leaf(x)])];
            CallsAsWritten(cs, Caller(c)) == [Call(NestedGroup(cs[0]), x)]
            && CallsAsWritten(cs, Caller(c))[0].context != Caller(c)
  {
    var cs: seq<Node<T>> := [Group([Leaf(x)])];
    var inner: Context<C, T> := NestedGroup(cs[0]);
    assert CallsAsWritten([Leaf(x)], inner) == [Call(inner, x)];
  }

  /** With the context passed down, every call gets the caller's context and
      the calls visit exactly the leaves, in order. */
  lemma {:induction false} CallsKeepContext<C, T>(cs: seq<Node<T>>, c: C)
    ensures |Calls(cs, Caller(c))| == |Leaves(cs)|
    ensures forall i :: 0 <= i < |Calls(cs, Caller(c))| ==>
              Calls(cs, Caller(c))[i] == Call(Caller(c), Leaves(cs)[i])
    decreases cs
  {
    if |cs| > 0 {
      CallsKeepContext(cs[1..], c);
      match cs[0] {
        case Leaf(x) =>
        case Group(ch) =>
          CallsKeepContext(ch, c);
      }
    }
  }
}

=== FILE: matches.dfy ===
/** The Game state's match counters and difficulty bounds (index.js:497-519),
    the kill bookkeeping of onPlayerEnemyOverlap (index.js:667-688), the score
    formula (index.js:656) and shutdown (index.js:790-797). */
module Matches {

  datatype Match = Match(
    score: int,
    numEnemiesAlive: int,
    numEnemiesKilled: int,
    minSpawnRate: int,
    maxSpawnRate: int,
    nextSpawnTime: int,
    minSpeed: real,
    maxSpeed: real)

  const InitialMinSpawnRate: int := 3000
  const InitialMaxSpawnRate: int := 7000
  /** Score points per enemy killed. */
  const KillScore: int := 100

  function Max(a: real, b: real): real {
    if a >= b then a else b
  }

  /** The Game constructor in a viewport of width by height pixels. The
      source's initial nextSpawnTime is null, which compares like 0. */
  function NewMatch(width: real, height: real): (m: Match)
    requires width > 0.0 && height > 0.0
    ensures m.score == 0 && m.numEnemiesAlive == 0 && m.numEnemiesKilled == 0
    ensures m.minSpawnRate == InitialMinSpawnRate && m.maxSpawnRate == InitialMaxSpawnRate
    ensures m.nextSpawnTime == 0
    ensures 0.0 < m.minSpeed < m.maxSpeed && m.maxSpeed == 2.0 * m.minSpeed
    ensures m.maxSpeed * 4.0 == Max(width, height)
  {
    var longest := Max(width, height);
    Match(0, 0, 0, InitialMinSpawnRate, InitialMaxSpawnRate, 0, longest / 8.0, longest / 4.0)
  }

  /** The spawn-rate bounds stay 4000 ms apart and never drop below their
      initial values; the counters are never negative. */
  predicate MatchOk(m: Match) {
    && m.numEnemiesAlive >= 0
    && m.numEnemiesKilled >= 0
    && m.minSpawnRate >= InitialMinSpawnRate
    && m.maxSpawnRate == m.minSpawnRate + (InitialMaxSpawnRate - InitialMinSpawnRate)
  }

  /** `k` dash kills: each kill raises the kill count, both speed bounds and
      both spawn-rate bounds by one, and lowers the alive count by one. */
  function RecordKills(m: Match, k: int): (r: Match)
    ensures r.numEnemiesKilled == m.numEnemiesKilled + k
    ensures r.numEnemiesAlive == m.numEnemiesAlive - k
    ensures r.minSpawnRate == m.minSpawnRate + k && r.maxSpawnRate == m.maxSpawnRate + k
    ensures r.minSpeed == m.minSpeed + k as real && r.maxSpeed == m.maxSpeed + k as real
    ensures r.score == m.score && r.nextSpawnTime == m.nextSpawnTime
  {
    m.(numEnemiesKilled := m.numEnemiesKilled + k,
       numEnemiesAlive := m.numEnemiesAlive - k,
       minSpawnRate := m.minSpawnRate + k, maxSpawnRate := m.maxSpawnRate + k,
       minSpeed := m.minSpeed + k as real, maxSpeed := m.maxSpeed + k as real)
  }

  /** Kills accumulate: recording j kills and then k is recording j + k. */
  lemma RecordKillsCompose(m: Match, j: int, k: int)
    ensures RecordKills(RecordKills(m, j), k) == RecordKills(m, j + k)
  {
  }

  /** A kill keeps the match invariant as long as some enemy was alive to be
      killed. */
  lemma RecordKillOk(m: Match)
    requires MatchOk(m) && m.numEnemiesAlive > 0
    ensures MatchOk(RecordKills(m, 1))
  {
  }

  /** The score: whole elapsed seconds plus 100 per kill. */
  function Score(elapsedSeconds: real, kills: int): (s: int)
    ensures (s - kills * KillScore) as real <= elapsedSeconds < (s - kills * KillScore + 1) as real
  {
    elapsedSeconds.Floor + kills * KillScore
  }

  /** The score never falls as time passes and kills accrue, and one more
      kill at the same moment is worth exactly 100. */
  lemma ScoreMonotone(e1: real, e2: real, k1: int, k2: int)
    requires e1 <= e2 && k1 <= k2
    ensures Score(e1, k1) <= Score(e2, k2)
    ensures Score(e1, k1 + 1) == Score(e1, k1) + KillScore
  {
  }

  /** shutdown: the alive and kill counts and the score go back to zero. The
      difficulty bounds and nextSpawnTime are left as they were: the one Game
      object is reused for every match. */
  function Shutdown(m: Match): (r: Match)
    ensures r.numEnemiesAlive == 0 && r.numEnemiesKilled == 0 && r.score == 0
    ensures r.minSpawnRate == m.minSpawnRate && r.maxSpawnRate == m.maxSpawnRate
    ensures r.minSpeed == m.minSpeed && r.maxSpeed == m.maxSpeed
    ensures r.nextSpawnTime == m.nextSpawnTime
    ensures MatchOk(m) ==> MatchOk(r)
  {
    m.(numEnemiesAlive := 0, numEnemiesKilled := 0, score := 0)
  }

  /** Shutting down twice is the same as once. */
  lemma ShutdownIdempotent(m: Match)
    ensures Shutdown(Shutdown(m)) == Shutdown(m)
  {
  }
}

=== FILE: players.dfy ===
/** The Player sprite's dash and follow logic (index.js:232-358) and the
    per-frame re-arming of the dash trigger (index.js:610-616).

    Positions are reals. The physics body's bounds, the pointer's contact
    circle and the button state are inputs supplied by the engine each frame;
    velocity is reduced to the last movement command given. */
module Players {

  datatype Point = Point(x: real, y: real)

  /** The velocity the player last set. */
  datatype PlayerMotion = Resting | Following | DashingTo(target: Point) | Halted

  datatype Player = Player(
    alive: bool,
    health: int,
    pos: Point,              // the physics body's position
    isDashing: bool,
    nextDashPos: Point,
    nextDashTime: int,
    allowDashStart: bool,
    maxDash: real,
    motion: PlayerMotion)

  /** The left mouse button as sampled this frame; `isUp` is `!isDown`. */
  datatype Button = Button(isDown: bool, justPressed: bool)

  /** The active pointer this frame. `touchesPlayer` is the engine's answer to
      "does the pointer's circle intersect the player's bounds". */
  datatype Pointer = Pointer(pos: Point, button: Button, touchesPlayer: bool)

  const InitialHealth: int := 4
  /** Cooldown, in ms, between dash starts. */
  const DashRate: int := 500

  function Abs(x: real): real {
    if x < 0.0 then -x else x
  }

  function Min(a: real, b: real): real {
    if a <= b then a else b
  }

  /** The Player constructor at `pos` and time `now`, in a viewport of
      width by height pixels. */
  function NewPlayer(pos: Point, now: int, width: real, height: real): (p: Player)
    requires width > 0.0 && height > 0.0
    ensures p.alive && p.health == InitialHealth && p.pos == pos
    ensures !p.isDashing && p.allowDashStart && p.nextDashTime == now
    ensures 0.0 < p.maxDash && p.maxDash * 5.0 == Min(width, height)
  {
    Player(true, InitialHealth, pos, false, Point(0.0, 0.0), now, true, Min(width, height) / 5.0, Resting)
  }

  /** canStartDash: all five conditions. The button is down on such a frame,
      so the update loop's re-arming leaves the player as it is. */
  function CanStartDash(p: Player, ptr: Pointer, now: int): (ok: bool)
    ensures ok ==> RearmDash(p, ptr.button) == p
  {
    && ptr.button.justPressed
    && ptr.button.isDown
    && now > p.nextDashTime
    && !p.isDashing
    && p.allowDashStart
  }

  /** One coordinate of the dash target: move from `from` toward `to` by the
      distance between them, but by at most maxDash. */
  function DashComponent(from: real, to: real, maxDash: real): (r: real)
    ensures maxDash >= 0.0 ==> Abs(r - from) <= maxDash
    ensures Abs(to - from) <= maxDash ==> r == to
    ensures maxDash >= 0.0 && Abs(to - from) > maxDash ==> Abs(r - from) == maxDash
    ensures maxDash >= 0.0 ==> (to < from ==> r <= from) && (to >= from ==> r >= from)
  {
    var dif := to - from;
    var amount := Min(maxDash, Abs(dif));
    if dif < 0.0 then from - amount else from + amount
  }

  /** The point to dash to, clamped per component. */
  function DashTarget(from: Point, to: Point, maxDash: real): (t: Point)
    ensures maxDash >= 0.0 ==> Abs(t.x - from.x) <= maxDash && Abs(t.y - from.y) <= maxDash
    ensures Abs(to.x - from.x) <= maxDash && Abs(to.y - from.y) <= maxDash ==> t == to
  {
    Point(DashComponent(from.x, to.x, maxDash), DashComponent(from.y, to.y, maxDash))
  }

  /** startDash: fix the dash target and start the dash and its cooldown.
      Nothing else about the player changes. */
  function StartDash(p: Player, ptr: Pointer, now: int): (r: Player)
    ensures r.isDashing && !r.allowDashStart && r.nextDashTime == now + DashRate
    ensures r.nextDashPos == DashTarget(p.pos, ptr.pos, p.maxDash)
    ensures r.(isDashing := p.isDashing, allowDashStart := p.allowDashStart,
               nextDashTime := p.nextDashTime, nextDashPos := p.nextDashPos) == p
  {
    p.(nextDashPos := DashTarget(p.pos, ptr.pos, p.maxDash),
       isDashing := true, allowDashStart := false, nextDashTime := now + DashRate)
  }

  /** move: with the pointer off the origin, start a dash when allowed; then
      either keep dashing, stop dashing on arrival (leaving the velocity as it
      was this frame), follow the pointer, or halt when the pointer is on the
      player. `contains` is the player's bounds as a membership test. */
  function Move(p: Player, ptr: Pointer, now: int, contains: Point -> bool): (r: Player)
    ensures ptr.pos == Point(0.0, 0.0) ==> r == p
    ensures ptr.pos != Point(0.0, 0.0) && CanStartDash(p, ptr, now) ==>
              r.nextDashPos == DashTarget(p.pos, ptr.pos, p.maxDash)
              && r.nextDashTime == now + DashRate && !r.allowDashStart
    ensures !(ptr.pos != Point(0.0, 0.0) && CanStartDash(p, ptr, now)) ==>
              r.nextDashPos == p.nextDashPos && r.nextDashTime == p.nextDashTime
              && r.allowDashStart == p.allowDashStart && (r.isDashing ==> p.isDashing)
    ensures ptr.pos != Point(0.0, 0.0) ==>
              (r.isDashing <==> (p.isDashing || CanStartDash(p, ptr, now)) && !contains(r.nextDashPos))
    ensures ptr.pos != Point(0.0, 0.0) && r.isDashing ==> r.motion == DashingTo(r.nextDashPos)
    ensures (ptr.pos != Point(0.0, 0.0) && (p.isDashing || CanStartDash(p, ptr, now))
             && contains(r.nextDashPos)) ==> r.motion == p.motion
    ensures ptr.pos != Point(0.0, 0.0) && !p.isDashing && !CanStartDash(p, ptr, now) ==>
              r.motion == (if ptr.touchesPlayer then Halted else Following)
    ensures r.health == p.health && r.alive == p.alive && r.pos == p.pos && r.maxDash == p.maxDash
  {
    if ptr.pos == Point(0.0, 0.0) then p
    else
      var p1 := if CanStartDash(p, ptr, now) then StartDash(p, ptr, now) else p;
      if p1.isDashing then
        if contains(p1.nextDashPos) then p1.(isDashing := false)
        else p1.(motion := DashingTo(p1.nextDashPos))
      else if !ptr.touchesPlayer then p1.(motion := Following)
      else p1.(motion := Halted)
  }

  /** The update loop re-arms the dash trigger on a frame with the button up. */
  function RearmDash(p: Player, button: Button): (r: Player)
    ensures r.allowDashStart <==> p.allowDashStart || !button.isDown
    ensures r.(allowDashStart := p.allowDashStart) == p
  {
    if !button.isDown then p.(allowDashStart := true) else p
  }

  /** The player's part of a frame. The physics step has already moved the
      body to `pos`; then the update loop re-arms the trigger and moves. A
      frame with the button up re-arms and starts no dash; with the button
      held, a disarmed trigger stays disarmed and no dash starts. */
  function PlayerFrame(p: Player, ptr: Pointer, now: int, contains: Point -> bool, pos: Point): (r: Player)
    ensures r.pos == pos
    ensures !ptr.button.isDown ==>
              r.allowDashStart && r.nextDashTime == p.nextDashTime && r.nextDashPos == p.nextDashPos
    ensures ptr.button.isDown && !p.allowDashStart ==>
              !r.allowDashStart && r.nextDashTime == p.nextDashTime && r.nextDashPos == p.nextDashPos
  {
    Move(RearmDash(p.(pos := pos), ptr.button), ptr, now, contains)
  }

  /** A dash never starts on a frame that re-arms the trigger, and a frame
      that starts a dash leaves the trigger disarmed. */
  lemma DashLeavesTriggerDisarmed(p: Player, ptr: Pointer, now: int, contains: Point -> bool, pos: Point)
    requires ptr.pos != Point(0.0, 0.0) && CanStartDash(RearmDash(p, ptr.button), ptr, now)
    ensures ptr.button.isDown && p.allowDashStart
    ensures !PlayerFrame(p, ptr, now, contains, pos).allowDashStart
    ensures PlayerFrame(p, ptr, now, contains, pos).nextDashTime == now + DashRate
    ensures PlayerFrame(p, ptr, now, contains, pos).nextDashPos == DashTarget(pos, ptr.pos, p.maxDash)
  {
  }

  /** An input frame for the player: the pointer, the clock, the player's
      bounds and the body's position after the physics step. */
  datatype PlayerInput = PlayerInput(ptr: Pointer, now: int, contains: Point -> bool, pos: Point)

  function PlayerFrames(p: Player, inputs: seq<PlayerInput>): Player
    decreases |inputs|
  {
    if |inputs| == 0 then p
    else PlayerFrames(PlayerFrame(p, inputs[0].ptr, inputs[0].now, inputs[0].contains, inputs[0].pos), inputs[1..])
  }

  /** Holding the button down never starts a second dash: once the trigger is
      disarmed, every frame with the button still down keeps it disarmed and
      keeps the dash cooldown where it was. Only a button-up frame re-arms. */
  lemma {:induction false} HeldButtonNeverRedashes(p: Player, inputs: seq<PlayerInput>)
    requires !p.allowDashStart
    requires forall i :: 0 <= i < |inputs| ==> inputs[i].ptr.button.isDown
    ensures !PlayerFrames(p, inputs).allowDashStart
    ensures PlayerFrames(p, inputs).nextDashTime == p.nextDashTime
    ensures PlayerFrames(p, inputs).nextDashPos == p.nextDashPos
    decreases |inputs|
  {
    if |inputs| > 0 {
      var q := PlayerFrame(p, inputs[0].ptr, inputs[0].now, inputs[0].contains, inputs[0].pos);
      HeldButtonNeverRedashes(q, inputs[1..]);
    }
  }

  /** onPlayerBulletOverlap's effect on the player: one point of damage,
      unless dashing. Bullets are not modelled, so the bullet's own kill
      is not part of this function. */
  function OnBulletHit(p: Player): (r: Player)
    ensures p.isDashing ==> r == p
    ensures !p.isDashing ==> r.health == p.health - 1 && r.(health := p.health) == p
  {
    if !p.isDashing then p.(health := p.health - 1) else p
  }

  /** `hits` bullets overlapping the player in one frame. */
  function BulletHits(p: Player, hits: nat): Player
  {
    if hits == 0 then p else OnBulletHit(BulletHits(p, hits - 1))
  }

  /** Bullet hits cost one health each, none while dashing, and change
      nothing else about the player. */
  lemma {:induction false} BulletHitsDamage(p: Player, hits: nat)
    ensures BulletHits(p, hits) == p.(health := p.health - (if p.isDashing then 0 else hits))
  {
    if hits > 0 {
      BulletHitsDamage(p, hits - 1);
    }
  }
}

=== FILE: random.dfy ===
/** Integer draws from Math.random, with the random source made an input.

    Every call to Math.random in the game is modelled as taking the next real
    of a supplied stream of draws, each in [0, 1). Functions that draw return
    the unconsumed rest of the stream, so the order of draws is the source's. */
module Random {

  /** One result of Math.random. */
  predicate IsDraw(u: real) {
    0.0 <= u < 1.0
  }

  /** A stream of Math.random results, consumed front to back. */
  predicate ValidDraws(ds: seq<real>) {
    forall i :: 0 <= i < |ds| ==> IsDraw(ds[i])
  }

  /** getRandomInt(min, max) when Math.random returned `u`:
      floor(u * (max - min)) + min. The bounds are integers in the model, so
      the source's Math.ceil(min) and Math.floor(max) leave them unchanged.
      The range is half-open, and an empty range (min == max) yields min. */
  function RandomInt(min: int, max: int, u: real): (r: int)
    requires IsDraw(u)
    ensures min < max ==> min <= r < max
    ensures min == max ==> r == min
  {
    var span := (max - min) as real;
    assert min < max ==> 0.0 <= u * span < span by {
      if min < max {
        ScaleBelow(u, span);
      }
    }
    (u * span).Floor + min
  }

  /** A draw scaled by a positive span stays in [0, span). */
  lemma ScaleBelow(u: real, span: real)
    requires IsDraw(u) && span > 0.0
    ensures 0.0 <= u * span < span
  {
    assert span - u * span == (1.0 - u) * span;
  }

  /** Every value of the half-open range is produced by some draw, so
      RandomInt ranges over exactly [min, max). */
  lemma RandomIntCovers(min: int, max: int, k: int)
    requires min <= k < max
    ensures exists u :: IsDraw(u) && RandomInt(min, max, u) == k
  {
    var span := (max - min) as real;
    var u := (k - min) as real / span;
    assert u * span == (k - min) as real;
    assert IsDraw(u) by {
      assert (k - min) as real < span;
    }
    assert RandomInt(min, max, u) == k;
  }

  /** getRandomInt(min, max) taking its draw from the front of the stream. */
  function NextInt(ds: seq<real>, min: int, max: int): (res: (int, seq<real>))
    requires |ds| > 0 && ValidDraws(ds)
    ensures res.1 == ds[1..] && ValidDraws(res.1)
    ensures min < max ==> min <= res.0 < max
    ensures min == max ==> res.0 == min
  {
    (RandomInt(min, max, ds[0]), ds[1..])
  }
}

=== FILE: spawn.dfy ===
/** The spawn director: spawnEnemies, addEnemies and addSquareEnemies
    (index.js:710-743). Each enemy created draws its first shot time. */
module Spawn {
  import opened Random
  import opened Enemies
  import opened Matches

  /** A freshly constructed enemy, created at `now`. */
  predicate Fresh(e: Enemy, now: int) {
    && e.alive && !e.isShooting && e.pending == NoShot && e.motion == Still
    && now + FirstShotMinDelay <= e.nextShootTime < now + FirstShotMaxDelay
  }

  /** How many enemies of a list are alive. */
  function CountAlive(es: seq<Enemy>): (n: nat)
    ensures n <= |es|
  {
    if |es| == 0 then 0
    else CountAlive(es[..|es| - 1]) + (if es[|es| - 1].alive then 1 else 0)
  }

  lemma {:induction false} CountAliveAppend(a: seq<Enemy>, b: seq<Enemy>)
    ensures CountAlive(a + b) == CountAlive(a) + CountAlive(b)
    decreases |b|
  {
    if |b| == 0 {
      assert a + b == a;
    } else {
      assert (a + b)[..|a + b| - 1] == a + b[..|b| - 1];
      CountAliveAppend(a, b[..|b| - 1]);
    }
  }

  /** Two lists that agree on who is alive have the same alive count. */
  lemma {:induction false} CountAliveSameLiveness(a: seq<Enemy>, b: seq<Enemy>)
    requires |a| == |b|
    requires forall i :: 0 <= i < |a| ==> a[i].alive == b[i].alive
    ensures CountAlive(a) == CountAlive(b)
    decreases |a|
  {
    if |a| > 0 {
      CountAliveSameLiveness(a[..|a| - 1], b[..|b| - 1]);
    }
  }

  /** A list of living enemies is counted in full. */
  lemma {:induction false} CountAliveAllAlive(es: seq<Enemy>)
    requires forall i :: 0 <= i < |es| ==> es[i].alive
    ensures CountAlive(es) == |es|
    decreases |es|
  {
    if |es| > 0 {
      CountAliveAllAlive(es[..|es| - 1]);
    }
  }

  /** createMultiple(n, 'square'): n enemy constructors, in order, each
      taking the next draw for its first shot time. */
  function NewEnemies(now: int, ds: seq<real>, n: nat): (es: seq<Enemy>)
    requires n <= |ds| && ValidDraws(ds)
    ensures |es| == n
    ensures forall i :: 0 <= i < n ==> Fresh(es[i], now) && EnemyOk(es[i])
  {
    seq(n, i requires 0 <= i < n && i < |ds| && ValidDraws(ds) => NewEnemy(now, ds[i]))
  }

  /** addSquareEnemies(n): n new enemies join the squares group and the alive
      count rises by exactly n; nothing else in the match changes. */
  function AddSquareEnemies(m: Match, squares: seq<Enemy>, n: nat, now: int, ds: seq<real>)
    : (r: (Match, seq<Enemy>, seq<real>))
    requires n <= |ds| && ValidDraws(ds)
    ensures r.0 == m.(numEnemiesAlive := m.numEnemiesAlive + n)
    ensures |r.1| == |squares| + n && r.1[..|squares|] == squares
    ensures forall i :: |squares| <= i < |r.1| ==> Fresh(r.1[i], now) && EnemyOk(r.1[i])
    ensures CountAlive(r.1) == CountAlive(squares) + n
    ensures r.2 == ds[n..] && ValidDraws(r.2)
  {
    var batch := NewEnemies(now, ds, n);
    CountAliveAllAlive(batch);
    CountAliveAppend(squares, batch);
    assert (squares + batch)[..|squares|] == squares;
    (m.(numEnemiesAlive := m.numEnemiesAlive + n), squares + batch, ds[n..])
  }

  /** addEnemies(n): draw an enemy kind with getRandomInt(1, 1), which is
      always 1, and dispatch on it. Both arms of the dispatch add square
      enemies, so the draw is consumed and n squares are added. */
  function AddEnemies(m: Match, squares: seq<Enemy>, n: nat, now: int, ds: seq<real>)
    : (r: (Match, seq<Enemy>, seq<real>))
    requires n + 1 <= |ds| && ValidDraws(ds)
    ensures r == AddSquareEnemies(m, squares, n, now, ds[1..])
  {
    var (kind, rest) := NextInt(ds, 1, 1);
    AddSquareEnemies(m, squares, n, now, rest)
  }

  /** spawnEnemies(n): a rate gate. Once the clock is past nextSpawnTime, the
      next spawn time is drawn from [now + minSpawnRate, now + maxSpawnRate)
      and n enemies are added; before that nothing happens and no draw is
      taken. */
  function SpawnEnemies(m: Match, squares: seq<Enemy>, n: nat, now: int, ds: seq<real>)
    : (r: (Match, seq<Enemy>, seq<real>))
    requires n + 2 <= |ds| && ValidDraws(ds)
    ensures now <= m.nextSpawnTime ==> r == (m, squares, ds)
    ensures now > m.nextSpawnTime ==>
              && r.0.numEnemiesAlive == m.numEnemiesAlive + n
              && (m.minSpawnRate < m.maxSpawnRate ==>
                    now + m.minSpawnRate <= r.0.nextSpawnTime < now + m.maxSpawnRate)
              && r.0 == m.(numEnemiesAlive := r.0.numEnemiesAlive, nextSpawnTime := r.0.nextSpawnTime)
              && r.1 == AddSquareEnemies(m, squares, n, now, ds[2..]).1
              && r.2 == ds[n + 2..]
    ensures ValidDraws(r.2)
  {
    if now > m.nextSpawnTime then
      var (gap, rest) := NextInt(ds, m.minSpawnRate, m.maxSpawnRate);
      AddEnemies(m.(nextSpawnTime := now + gap), squares, n, now, rest)
    else
      (m, squares, ds)
  }
}
